=== FILE: README.md ===
# TripGenius AI client core, modelled in Dafny

TripGenius is a Django travel-planning application. Besides its CRUD endpoints, it has two thin clients for
chat-completion APIs:

- `ErnieService` posts to `https://www.blueshirtmap.com/v1/chat/completions`. It serves a buffered call and a
  streaming call, and it raises an exception on every failure.
- `DeepSeekService.summarize_document` posts to `<base>/chat/completions` and always returns a result
  dictionary.

Two views build prompts for the ERNIE client: `translate_text` and `ai_recommend`. This project models that
core as pure functions over immutable values:

- the server-sent-event line decoder of the streaming call;
- the request each call builds (URL, headers, payload);
- the way each transport outcome becomes a reply or an error, following the source's `except` ladders;
- the credential handling of both clients;
- the DeepSeek truncation and prompt assembly;
- the translation and recommendation prompt builders and their `{ret, ...}` replies.

HTTP, JSON parsing and Django are abstracted as values:

- `Http.Outcome`: what `requests.post` returned, or which `requests` exception it raised.
- `Http.Parsed`: what `json.loads` or `Response.json()` produced.
- a `parse: string -> Parsed` parameter: the per-line `json.loads` of the stream decoder.
- `apiKey` of `ErnieService.NewErnie` and of the two views: the settings value `ERNIE_API_KEY`. The `apiKey` of
  `DeepSeekService.NewDeepSeek` is the constructor's own `api_key` argument.
- `AiViews.Preference`: the user's stored `TravelPreference` row, if one exists.

Files, one module each: `wrappers.dfy` (Option, Result), `text.dfy` (prefix tests, `str()` of integers and
two-place decimals), `http.dfy`, `stream_decoder.dfy`, `ernie_service.dfy`, `deepseek_service.dfy`,
`ai_views.dfy`, `client_contrast.dfy`.

The model follows the code, including where it may surprise a reader:

- `data: [DONE]` does not end the stream. The loop has no `break`; it only skips that line, so later lines are
  still decoded (`StreamDecoder.DoneDoesNotStop`).
- The ERNIE client does not check its key at construction. The first call raises instead
  (`ErnieService.MissingKeyFailsOnCall`). Only the DeepSeek client rejects an empty key when it is built.
- The ERNIE client accepts only status 200. Every other status is an error, including other 2xx codes.
  Only a 200 response with absent or empty `choices` is reported as malformed.
- `raise_for_status` raises only for statuses 400 to 599, so only those statuses go straight to the DeepSeek
  client's request-error branch. Any other status goes on to parse the body. A body that is not JSON then also
  lands in the request-error branch, as do transport failures other than timeouts.
- A connect timeout is both a `ConnectionError` and a `Timeout` in `requests`. So the two clients report it
  differently: as a network failure and as a timeout (`ClientContrast.ConnectTimeoutRouting`).

## Model

| member | source | states |
|---|---|---|
| `StreamDecoder.DeltaContent` | AI/ernie_service.py:162-166 | an event yields something exactly when `choices` is a non-empty list whose first element has a `delta` with truthy `content`, and then it yields that `content`; a missing `delta` or a missing or empty `content` yields nothing |
| `StreamDecoder.Fragment` | AI/ernie_service.py:155-166 | a line yields a fragment only if it starts with `data: `, its data is not `[DONE]`, and the fragment is the non-empty delta content of the parsed data |
| `StreamDecoder.Decode` | AI/ernie_service.py:154-169 | the decoded stream has no more fragments than lines, and no fragment is empty |
| `StreamDecoder.DecodeAppend` | AI/ernie_service.py:154-169 | decoding two line streams back to back gives the fragments of the first, then those of the second: no line affects how another is decoded |
| `StreamDecoder.SkippedLine` | AI/ernie_service.py:154-169 | a blank line, a line without `data: `, `[DONE]`, unparseable JSON, or an event without usable content yields nothing, and the lines around it still yield their fragments in order |
| `StreamDecoder.DoneDoesNotStop` | AI/ernie_service.py:157-159 | lines after `data: [DONE]` are decoded as if it were absent |
| `StreamDecoder.YieldingLine` | AI/ernie_service.py:160-166 | a line with content contributes exactly that content, between the fragments of the lines before and after it |
| `StreamDecoder.CollectIndexed` | AI/ernie_service.py:154-169 | the left-to-right line loop computes the in-order filter-map of its per-line function and records, in increasing order, exactly the indices of the inputs that produced a value |
| `StreamDecoder.DecodeStream` | AI/ernie_service.py:154-169 | the line loop agrees with `Decode`, and its output is exactly the contents of the yielding lines, in input order: each fragment comes from a yielding line, origins strictly increase, and every yielding line is used |
| `StreamDecoder.TwoEventsAndDone` | AI/ernie_service.py:154-169 | two content events with an unparseable line between them, then `[DONE]`, yield exactly the two contents |
| `Http.Bearer` | AI/ernie_service.py:66 | the authorization value is `Bearer ` followed by the token, which can be read back after the scheme |
| `Http.UserPayload` | AI/ernie_service.py:50-60 | the payload has the given model and stream flag, temperature 0.7, `max_tokens` 2048, and exactly one message, from the `user` role; the DeepSeek payload of AI/deepseek_service.py:75-83 is built the same way |
| `Http.UserPayloadCarriesPrompt` | AI/ernie_service.py:50-60 | the payload's single user message carries the prompt verbatim |
| `Http.RaiseForStatus` | AI/deepseek_service.py:94 | `raise_for_status` fails exactly for statuses 400 to 599, and its message starts with the status and ends with the URL |
| `Text.NatToStringRoundTrip` | AI/ernie_service.py:92 | the status code printed into an error message reads back as the same number |
| `Text.DecimalTextRoundTrip` | AI/views.py:88-89 | a budget printed as a two-place decimal keeps its sign and its magnitude |
| `ErnieService.NewErnie` | AI/ernie_service.py:9-14 | construction never fails, keeps the key as given (possibly absent), and starts with no cached token |
| `ErnieService.GetAccessToken` | AI/ernie_service.py:19-28 | the token step succeeds exactly when the key is non-empty and then caches the key itself; otherwise it raises the settings message |
| `ErnieService.EnsureToken` | AI/ernie_service.py:43-44 | a cached token is reused; after the step the token equals the key, and the step fails exactly when no key is configured |
| `ErnieService.CompletionRequest` | AI/ernie_service.py:47-67 | URL is base + `/v1/chat/completions`; the bearer header carries the token; the prompt, model, temperature 0.7 and `max_tokens` 2048 are sent; `stream: true` and `Accept: text/event-stream` appear only when streaming |
| `ErnieService.TransportError` | AI/ernie_service.py:94-102 | connection errors, connect timeouts included, become network failures; only read timeouts become timeouts; the network and timeout failures carry exactly the texts `网络连接错误，请检查网络连接是否正常` and `请求超时，请稍后重试`; other request errors carry their detail |
| `ErnieService.StatusError` | AI/ernie_service.py:82-92 | 401 is an auth failure with exactly the `API认证失败，请检查API Key是否正确` text, and 404 is not-found with exactly the endpoint text followed by the URL; any other status, 2xx included, is a bad status naming the code and ending with the body; all carry the catch-all prefix; the bad-status message is exactly the prefix, `API调用失败: `, the code, ` - ` and the body |
| `ErnieService.ReplyContent` | AI/ernie_service.py:73-81 | a 200 body succeeds exactly when `choices` is non-empty and its first message has content, which is returned; an unparseable body is a request error; absent or empty `choices` is a malformed response whose message is the prefixed format-error text followed by the body; a missing `message` is the prefixed `'message'` KeyError text; a missing `content` is the prefixed `'content'` KeyError text |
| `ErnieService.ChatCompletion` | AI/ernie_service.py:30-105 | without a key nothing is sent and the call fails with the prefixed settings message; otherwise the request built from the key is sent; success implies status 200; with a key, a failed POST is exactly `TransportError` of the failure and a non-200 status is exactly `StatusError` of the status, body and URL under the call prefix; the cached-token invariant is kept |
| `ErnieService.ChatCompletionStream` | AI/ernie_service.py:107-194 | same credential and request rules with `stream` set; the call yields exactly when the POST returned 200, and then exactly `Decode` of the lines, all non-empty; with a key, a failed POST is exactly `TransportError` of the failure and a non-200 status is exactly `StatusError` under the streaming prefix |
| `ErnieService.ChatCompletionSucceeds` | AI/ernie_service.py:73-79 | a buffered call succeeds iff a key is set, the status is 200 and the body has a usable first choice; the reply is `choices[0].message.content` |
| `ErnieService.ResponseErrorsWrapped` | AI/ernie_service.py:73-105 | every failure raised after a response was received carries the `AI API调用出错: ` prefix; a 200 without usable `choices` fails |
| `ErnieService.StreamResponseRouting` | AI/ernie_service.py:152-194 | in the streaming call, non-200 failures carry the `AI流式API调用出错: ` prefix, and a 200 response yields the decoded lines |
| `ErnieService.BadStatusNamesCode` | AI/ernie_service.py:92 | the status code can be read back from a bad-status message |
| `ErnieService.TokenReused` | AI/ernie_service.py:41-67 | after a first call with a key, the instance caches that key, and a second call sends the same bearer credential and leaves the instance unchanged |
| `ErnieService.MissingKeyFailsOnCall` | AI/ernie_service.py:9-28 | with no key, construction succeeds but both calls fail with a missing-credential error, and nothing is sent |
| `DeepSeekService.NewDeepSeek` | AI/deepseek_service.py:12-22 | construction fails with `API密钥不能为空` exactly when the key is absent or empty; an omitted base URL defaults to `https://api.deepseek.com/v1`; otherwise the headers carry `Bearer ` + key and a JSON content type |
| `DeepSeekService.Truncate` | AI/deepseek_service.py:43-47 | the document sent is a prefix of the input, of length min(length, 20000) |
| `DeepSeekService.TruncateIdempotent` | AI/deepseek_service.py:44-47 | truncation is idempotent and leaves a document within the limit unchanged |
| `DeepSeekService.PromptFor` | AI/deepseek_service.py:49-66 | a truthy custom prompt is used as is; otherwise the default prompt is used |
| `DeepSeekService.FullPrompt` | AI/deepseek_service.py:68 | the full prompt is the prompt, one newline, then the document, and the document can be read back from it |
| `DeepSeekService.SummaryRequest` | AI/deepseek_service.py:75-90 | URL is base + `/chat/completions` with the constructed headers; model `deepseek-chat`, one user message with the full prompt, `stream` false, temperature 0.7, `max_tokens` 2048 |
| `DeepSeekService.DocumentRecoverable` | AI/deepseek_service.py:43-83 | the document in the sent prompt is a prefix of the caller's document, at most 20000 characters, and equal to it when within the limit |
| `DeepSeekService.SummaryReply` | AI/deepseek_service.py:94-140 | success exactly for a non-4xx/5xx response with a usable first choice; the summary is its content and usage is `usage` or `{}`; timeouts are matched before other request errors; 4xx/5xx go to the request-error branch with exactly the `raise_for_status` text after the prefix, and so does a body that is not JSON, carrying the parser's error; a failure's error is the timeout text or starts with the request-error, parse-error or unknown-error prefix |
| `DeepSeekService.SummarizeDocument` | AI/deepseek_service.py:25-140 | never raises: it always sends the summary request and returns exactly the dictionary `SummaryReply` gives for the outcome, so its success shape and its four error forms hold of the call; success implies the status was not 4xx/5xx; the sent prompt stays within the truncation bound |
| `DeepSeekService.ErrorStatusReported` | AI/deepseek_service.py:94 | a 4xx/5xx reply reaches the caller of `summarize_document` as the request-error prefix, then text opening with the status code and ending with the request URL |
| `DeepSeekService.MalformedReplyRouting` | AI/deepseek_service.py:100-140 | a missing `choices`, `message` or `content` goes to the KeyError branch, naming the key; an empty `choices` goes to the generic branch with the IndexError text |
| `ClientContrast.ConnectTimeoutRouting` | AI/deepseek_service.py:111-116 | a connect timeout is a network failure to the ERNIE client and a timeout to the DeepSeek client |
| `ClientContrast.ConnectErrorRouting` | AI/ernie_service.py:94-96 | a connection error is a network failure to the ERNIE client and a prefixed request error to the DeepSeek client |
| `AiViews.LanguageName` | AI/views.py:30-39 | the name is always one of the six table names; known codes map through the table and unknown codes give `中文` |
| `AiViews.LanguageTable` | AI/views.py:30-39 | zh, en, ja, ko, fr and de map to 中文, 英文, 日文, 韩文, 法文 and 德文; every other code gives 中文 |
| `AiViews.TranslatePrompt` | AI/views.py:41 | the prompt opens with the instruction naming the language and ends with a blank line followed by the text verbatim |
| `AiViews.TranslateView` | AI/views.py:19-57 | empty or absent text gives `ret 1` with `请输入需要翻译的文本` and sends nothing; for non-empty text the view sends exactly what the ERNIE call sends; `ret 0` iff that call succeeds, and `translated_text` is its reply; otherwise `ret 1` with `翻译失败: ` and the call's error, also when the key is missing and nothing is sent; success echoes the text and the code as supplied (default `zh`); the prompt sent names the looked-up language |
| `AiViews.AppendPreferencesMember` | AI/views.py:84-93 | the preference block adds exactly the header when a record exists, plus a line for each truthy field, with the budget line only when both ends are truthy |
| `AiViews.SectionText` | AI/views.py:82-98 | each section's text is non-empty; every preference line is a `- ` item; an activities, climate, special-request or user-need line ends with the field's text and a newline; the budget line ends with the two amounts as `str()` prints two-place decimals, joined by `-`, then `元` and a newline; the planner header, preference header and closing texts are exact, and each line opens with its source label (`偏好的活动类型: `, `预算范围: `, `偏好的气候: `, `特殊要求: `, `用户具体需求: `) |
| `AiViews.AppendPreferences` | AI/views.py:84-93 | the preference block keeps the planner header first and appends its lines in the source's order, each at most once, all before the user-need line |
| `AiViews.Render` | AI/views.py:82-98 | the prompt is the section texts concatenated: empty for no sections, otherwise starting with the first section's text and ending with the last's |
| `AiViews.RenderAppend` | AI/views.py:82-98 | each `prompt +=` adds its text at the end: rendering distributes over appending sections, and one section renders to its own text |
| `AiViews.RenderAt` | AI/views.py:82-98 | every section's text appears in the prompt, between the texts of the sections before it and those after it |
| `AiViews.UserNeedInPrompt` | AI/views.py:95-96 | a non-empty user input appears in the recommendation prompt on its own `用户具体需求` line |
| `AiViews.RecommendSections` | AI/views.py:82-98 | the prompt sections start with the planner header and end with the closing sentence, in the source's order, each at most once |
| `AiViews.RecommendSectionsMember` | AI/views.py:82-98 | a section is present exactly when it is the header, the closing, in the preference block, or the user's need for a non-empty input |
| `AiViews.RecommendSectionsPresence` | AI/views.py:84-96 | the preference header appears iff a record exists; the user-need line appears iff the input is non-empty and carries it; the budget line appears iff both ends are set and non-zero |
| `AiViews.RecommendPromptFrame` | AI/views.py:82-98 | the rendered prompt starts with the planner header and ends with the closing sentence |
| `AiViews.RecommendView` | AI/views.py:62-112 | the view sends exactly what the ERNIE call sends; `ret 0` iff that call succeeds, with its reply as the recommendation; otherwise `ret 1` with the prefixed error message |

## Left out

- HTTP transport: `requests.post`, the 120-second timeout and `iter_lines`. Each is reduced to an `Outcome` value:
  a raised `requests` exception, or a response with status, reason, text, parsed body and lines. A failure
  while the body is being streamed is not modelled.
- JSON parsing: reduced to the `Parsed` value and the `parse` parameter. Type-mismatched shapes are not modelled:
  a non-object top level, `choices` that is not a list, a `null` `delta`, or a non-string `content`. In the source
  their effect depends on the shape. An array top level is tested by membership: without the string `"choices"` among
  its elements the stream skips the line and the buffered call reports a malformed response, and with it the
  subscript `data["choices"]` raises `TypeError`, which the catch-all re-raises with the call or streaming prefix. A string top level is tested by substring: without `choices` in it the line is skipped as for an array, and with it the subscript raises `TypeError` in the same way. A number,
  boolean or `null` top level, and a `null` `delta`, raise `TypeError` or `AttributeError` into the catch-all clauses.
- `Response.json()` is assumed to raise `requests`' own `JSONDecodeError`, which is a `RequestException`. That is
  the behaviour of `requests` 2.27 and later. Older versions would route a non-JSON 200 body to the catch-all instead.
- The HTTPError message names the request URL. `requests` names the final URL after redirects, and redirects
  are not modelled.
- The stream decodes each line with a strict `line.decode('utf-8')` (AI/ernie_service.py:156). A line that is not
  valid UTF-8 raises `UnicodeDecodeError`, which the catch-all re-raises with the `AI流式API调用出错: ` prefix,
  ending the stream. The model's lines are already text, so it does not model that failure.
- UTF-8 `encode`/`decode` with `errors='ignore'` is treated as the identity on text. So the DeepSeek
  `UnicodeDecodeError` branch, which that encoding cannot reach, is not modelled, and neither is `bytes` input.
- Logging, and the generator laziness of the streaming call. The stream is modelled as fully consumed: either
  its fragments, or the exception raised at the first `next()`.
- The temperature `0.7` is kept as a constant, `Http.Temperature`. No floating-point arithmetic is involved.
- Request-body parsing, login and CSRF decorators in the views. The views take the parsed `text`,
  `target_language` and `preferences` fields and the stored preference as inputs. JSON `null` in those fields
  is treated like an absent key.
- The recommendation budget is modelled as a whole number of hundredths, rendered like `str()` of a two-place
  `Decimal`.
- The ORM models and CRUD views (travel/models.py, travel/views.py), sign-in/out, URL configuration, admin and
  deployment configuration. None of them is part of this model.

=== FILE: ai_views.dfy ===
/** The two AI views: prompt building and validation of `translate_text` and
    `ai_recommend`, and the `{ret, ...}` reply each gives. The request body
    arrives already parsed; the ERNIE client is created fresh per request. */
module AiViews {
  import opened Wrappers
  import opened Text
  import opened Http
  import opened ErnieService

  const EmptyTextMsg: string := "请输入需要翻译的文本"
  const TranslateFailurePrefix: string := "翻译失败: "
  const RecommendFailurePrefix: string := "获取AI推荐失败: "

  const DefaultLanguage: string := "zh"
  const FallbackLanguageName: string := "中文"
  /** Target-language codes and the names the prompt uses for them. */
  const LanguageNames: map<string, string> :=
    map["zh" := "中文", "en" := "英文", "ja" := "日文", "ko" := "韩文", "fr" := "法文", "de" := "德文"]

  const TranslateLead: string := "请将以下文本翻译成"
  const TranslateInstruction: string := "，只返回翻译结果，不要添加任何其他内容：\n\n"

  /** The parsed body of a translation request; a field is `None` when the
      key is absent. */
  datatype TranslateBody = TranslateBody(text: Option<string>, targetLanguage: Option<string>)

  /** The JSON reply of `translate_text`: `ret 0` with the data, or `ret 1`
      with a message. */
  datatype TranslateReply =
    | Translated(originalText: string, translatedText: string, targetLanguage: string)
    | TranslateRejected(msg: string)
  {
    function Ret(): nat {
      if Translated? then 0 else 1
    }
  }

  /** A view's reply together with the chat request it sent, if any. */
  datatype ViewExchange<R> = ViewExchange(sent: Option<Request>, reply: R)

  /** The language name for a code; unknown codes read as Chinese. */
  function LanguageName(code: string): (name: string)
    ensures name in LanguageNames.Values
    ensures code in LanguageNames ==> name == LanguageNames[code]
    ensures code !in LanguageNames ==> name == FallbackLanguageName
  {
    assert LanguageNames["zh"] == FallbackLanguageName;
    if code in LanguageNames then LanguageNames[code] else FallbackLanguageName
  }

  /** The six supported codes and their names; everything else is Chinese. */
  lemma LanguageTable(code: string)
    ensures LanguageName("zh") == "中文" && LanguageName("en") == "英文" && LanguageName("ja") == "日文"
    ensures LanguageName("ko") == "韩文" && LanguageName("fr") == "法文" && LanguageName("de") == "德文"
    ensures code != "zh" && code != "en" && code != "ja" && code != "ko" && code != "fr" && code != "de"
            ==> LanguageName(code) == "中文"
  {
  }

  /** The translation prompt: the instruction naming the language, a blank
      line, then the text verbatim. */
  function TranslatePrompt(languageName: string, text: string): (p: string)
    ensures |p| == |TranslateLead| + |languageName| + |TranslateInstruction| + |text|
    ensures StartsWith(p, TranslateLead + languageName)
    ensures EndsWith(p, "\n\n" + text)
    ensures p[|TranslateLead| + |languageName| + |TranslateInstruction|..] == text
  {
    TranslateLead + languageName + TranslateInstruction + text
  }

  /** `translate_text`. */
  function TranslateView(body: TranslateBody, apiKey: Option<string>, outcome: Outcome): (x: ViewExchange<TranslateReply>)
    ensures !Truthy(body.text) <==> x.sent.None? && x.reply == TranslateRejected(EmptyTextMsg)
    ensures x.reply.Translated? ==>
              && x.reply.originalText == body.text.value
              && x.reply.targetLanguage == body.targetLanguage.GetOr(DefaultLanguage)
    ensures x.sent.Some? ==>
              PromptOf(x.sent.value.payload)
                == Some(TranslatePrompt(LanguageName(body.targetLanguage.GetOr(DefaultLanguage)), body.text.value))
    ensures Truthy(body.text) ==>
              var call := ChatCompletion(NewErnie(apiKey),
                                         TranslatePrompt(LanguageName(body.targetLanguage.GetOr(DefaultLanguage)), body.text.value),
                                         DefaultModel, outcome);
              && x.sent == call.sent
              && (x.reply.Ret() == 0 <==> call.result.Success?)
              && (x.reply.Translated? ==> x.reply.translatedText == call.result.value)
              && (x.reply.TranslateRejected? ==> x.reply.msg == TranslateFailurePrefix + call.result.error.message)
  {
    var text := body.text.GetOr("");
    var language := body.targetLanguage.GetOr(DefaultLanguage);
    if !Truthy(body.text) then ViewExchange(None, TranslateRejected(EmptyTextMsg))
    else
      var call := ChatCompletion(NewErnie(apiKey), TranslatePrompt(LanguageName(language), text), DefaultModel, outcome);
      match call.result
      case Success(translated) => ViewExchange(call.sent, Translated(text, translated, language))
      case Failure(e) => ViewExchange(call.sent, TranslateRejected(TranslateFailurePrefix + e.message))
  }

  /** A user's stored travel preference. Budgets are two-place decimals in
      hundredths, `None` when the column is NULL. */
  datatype Preference = Preference(activities: string, budgetMin: Option<int>, budgetMax: Option<int>,
                                   climate: string, special: string)

  /** The sections of a recommendation prompt, in the order they are
      appended. */
  datatype Section =
    | PlannerHeader
    | PreferenceHeader
    | Activities(text: string)
    | Budget(low: int, high: int)
    | Climate(text: string)
    | Special(text: string)
    | UserNeed(text: string)
    | Closing

  /** The position of a section kind in the prompt. */
  function Rank(s: Section): nat {
    match s
    case PlannerHeader => 0
    case PreferenceHeader => 1
    case Activities(_) => 2
    case Budget(_, _) => 3
    case Climate(_) => 4
    case Special(_) => 5
    case UserNeed(_) => 6
    case Closing => 7
  }

  const PlannerHeaderText: string := "你是一个专业的旅行规划师，请根据以下信息为用户推荐旅行计划：\n\n"
  const ClosingText: string := "\n请给出详细的旅行计划推荐，包括目的地、行程安排、注意事项等。以清晰的格式返回结果。"

  const PreferenceHeaderText: string := "用户偏好信息：\n"

  /** The marker that opens each line of the preference block, and the
      labels that follow it. */
  const ItemMark: string := "- "
  const ActivitiesLabel: string := "偏好的活动类型: "
  const BudgetLabel: string := "预算范围: "
  const ClimateLabel: string := "偏好的气候: "
  const SpecialLabel: string := "特殊要求: "
  const UserNeedLabel: string := "\n用户具体需求: "

  /** A prompt line: a marker, a lead, the line's own text, then a tail. */
  function Line(mark: string, lead: string, body: string, tail: string): (r: string)
    ensures StartsWith(r, mark) && StartsWith(r, mark + lead)
    ensures EndsWith(r, body + tail) && EndsWith(r, tail)
  {
    var r := mark + lead + body + tail;
    assert r == mark + (lead + body + tail);
    assert r == (mark + lead) + (body + tail);
    r
  }

  /** The text one section appends to the prompt. Every line of the preference
      block is a `- ` item, and a field's text is the line's tail, before its
      newline. */
  function SectionText(s: Section): (r: string)
    ensures r != ""
    ensures s.Activities? || s.Budget? || s.Climate? || s.Special? ==> StartsWith(r, ItemMark)
    ensures s.Activities? || s.Climate? || s.Special? || s.UserNeed? ==> EndsWith(r, s.text + "\n")
    ensures s.Budget? ==> EndsWith(r, DecimalText(s.low) + "-" + DecimalText(s.high) + "元\n")
    ensures s.PlannerHeader? ==> r == PlannerHeaderText
    ensures s.PreferenceHeader? ==> r == PreferenceHeaderText
    ensures s.Closing? ==> r == ClosingText
    ensures s.Activities? ==> StartsWith(r, ItemMark + ActivitiesLabel)
    ensures s.Budget? ==> StartsWith(r, ItemMark + BudgetLabel)
    ensures s.Climate? ==> StartsWith(r, ItemMark + ClimateLabel)
    ensures s.Special? ==> StartsWith(r, ItemMark + SpecialLabel)
    ensures s.UserNeed? ==> StartsWith(r, UserNeedLabel)
  {
    match s
    case PlannerHeader => PlannerHeaderText
    case PreferenceHeader => PreferenceHeaderText
    case Activities(t) => Line(ItemMark, ActivitiesLabel, t, "\n")
    case Budget(lo, hi) => Line(ItemMark, BudgetLabel, DecimalText(lo) + "-" + DecimalText(hi), "元\n")
    case Climate(t) => Line(ItemMark, ClimateLabel, t, "\n")
    case Special(t) => Line(ItemMark, SpecialLabel, t, "\n")
    case UserNeed(t) => Line("", UserNeedLabel, t, "\n")
    case Closing => ClosingText
  }

  /** Python truthiness of an optional decimal. */
  predicate NonZero(d: Option<int>) {
    d.Some? && d.value != 0
  }

  predicate Ascending(ss: seq<Section>) {
    forall i, j :: 0 <= i < j < |ss| ==> Rank(ss[i]) < Rank(ss[j])
  }

  /** Every section of `ss` ranks below `k`. */
  predicate Below(ss: seq<Section>, k: nat) {
    forall t :: t in ss ==> Rank(t) < k
  }

  /** One `prompt += ...` under a condition: `s` is appended when `keep`. */
  function AppendIf(ss: seq<Section>, keep: bool, s: Section): (r: seq<Section>)
    requires Ascending(ss) && Below(ss, Rank(s))
    ensures forall t :: t in r <==> t in ss || (keep && t == s)
    ensures Ascending(r) && Below(r, Rank(s) + 1)
    ensures |ss| > 0 ==> |r| > 0 && r[0] == ss[0]
  {
    if keep then ss + [s] else ss
  }

  /** Which sections the preference block holds: none without a record;
      with one, the block header, and a line for each truthy field (the
      budget only when both ends are truthy). */
  predicate InPreferenceBlock(pref: Option<Preference>, t: Section) {
    match pref
    case None => false
    case Some(p) =>
      match t
      case PreferenceHeader => true
      case Activities(a) => a != "" && a == p.activities
      case Budget(lo, hi) => NonZero(p.budgetMin) && NonZero(p.budgetMax) && p.budgetMin == Some(lo) && p.budgetMax == Some(hi)
      case Climate(c) => c != "" && c == p.climate
      case Special(x) => x != "" && x == p.special
      case _ => false
  }

  /** The `if preferences_info:` block, appended to the planner header. */
  function AppendPreferences(ss: seq<Section>, pref: Option<Preference>): (r: seq<Section>)
    requires Ascending(ss) && Below(ss, Rank(PreferenceHeader))
    ensures Ascending(r) && Below(r, Rank(UserNeed("")))
    ensures |ss| > 0 ==> |r| > 0 && r[0] == ss[0]
  {
    match pref
    case None => ss
    case Some(p) =>
      var r1 := AppendIf(ss, true, PreferenceHeader);
      var r2 := AppendIf(r1, p.activities != "", Activities(p.activities));
      var r3 := AppendIf(r2, NonZero(p.budgetMin) && NonZero(p.budgetMax),
                         Budget(p.budgetMin.GetOr(0), p.budgetMax.GetOr(0)));
      var r4 := AppendIf(r3, p.climate != "", Climate(p.climate));
      var r5 := AppendIf(r4, p.special != "", Special(p.special));
      r5
  }

  /** The block adds exactly the sections `InPreferenceBlock` names. */
  lemma AppendPreferencesMember(ss: seq<Section>, pref: Option<Preference>, t: Section)
    requires Ascending(ss) && Below(ss, Rank(PreferenceHeader))
    ensures t in AppendPreferences(ss, pref) <==> t in ss || InPreferenceBlock(pref, t)
  {
  }

  /** The sections of the recommendation prompt, appended in source order:
      the planner header, the preference block, the user's need when
      non-empty, the closing sentence. */
  function RecommendSections(pref: Option<Preference>, userInput: string): (r: seq<Section>)
    ensures |r| >= 2 && r[0] == PlannerHeader && r[|r| - 1] == Closing
    ensures Ascending(r)
  {
    var r1 := AppendPreferences([PlannerHeader], pref);
    var r2 := AppendIf(r1, userInput != "", UserNeed(userInput));
    AppendIf(r2, true, Closing)
  }

  /** A section is in the recommendation prompt exactly when it is the
      header, the closing sentence, a section of the preference block, or the
      user's need for a non-empty input. */
  lemma RecommendSectionsMember(pref: Option<Preference>, userInput: string, t: Section)
    ensures t in RecommendSections(pref, userInput) <==>
              || t == PlannerHeader || t == Closing || InPreferenceBlock(pref, t)
              || (userInput != "" && t == UserNeed(userInput))
  {
    AppendPreferencesMember([PlannerHeader], pref, t);
  }

  /** The preference header appears exactly when a preference record exists,
      and the user-need section exactly when the input is non-empty, carrying
      the input. */
  lemma RecommendSectionsPresence(pref: Option<Preference>, userInput: string)
    ensures PreferenceHeader in RecommendSections(pref, userInput) <==> pref.Some?
    ensures forall t :: UserNeed(t) in RecommendSections(pref, userInput) <==> userInput != "" && t == userInput
    ensures forall lo, hi :: Budget(lo, hi) in RecommendSections(pref, userInput) <==>
              pref.Some? && pref.value.budgetMin == Some(lo) && pref.value.budgetMax == Some(hi) && lo != 0 && hi != 0
  {
    RecommendSectionsMember(pref, userInput, PreferenceHeader);
    forall t
      ensures UserNeed(t) in RecommendSections(pref, userInput) <==> userInput != "" && t == userInput
    {
      RecommendSectionsMember(pref, userInput, UserNeed(t));
    }
    forall lo, hi
      ensures Budget(lo, hi) in RecommendSections(pref, userInput) <==>
                pref.Some? && pref.value.budgetMin == Some(lo) && pref.value.budgetMax == Some(hi) && lo != 0 && hi != 0
    {
      RecommendSectionsMember(pref, userInput, Budget(lo, hi));
    }
  }

  /** The concatenation of a list of texts, in order. */
  function Concat(parts: seq<string>): string {
    if |parts| == 0 then "" else parts[0] + Concat(parts[1..])
  }

  lemma {:induction false} ConcatAppend(a: seq<string>, b: seq<string>)
    ensures Concat(a + b) == Concat(a) + Concat(b)
  {
    if |a| == 0 {
      assert a + b == b;
    } else {
      assert (a + b)[1..] == a[1..] + b;
      ConcatAppend(a[1..], b);
    }
  }

  /** Concatenation peels off its last part as well as its first. */
  lemma {:induction false} ConcatLast(parts: seq<string>)
    requires |parts| >= 1
    ensures Concat(parts) == Concat(parts[..|parts| - 1]) + parts[|parts| - 1]
  {
    var n := |parts|;
    assert parts == parts[..n - 1] + parts[n - 1..];
    ConcatAppend(parts[..n - 1], parts[n - 1..]);
    assert parts[n - 1..][1..] == [];
  }

  /** The concatenation of texts starts with the first text and ends with
      the last. */
  lemma ConcatFrame(parts: seq<string>)
    requires |parts| >= 1
    ensures StartsWith(Concat(parts), parts[0])
    ensures EndsWith(Concat(parts), parts[|parts| - 1])
  {
    var first, last := parts[0], parts[|parts| - 1];
    var tail := Concat(parts[1..]);
    assert (first + tail)[..|first|] == first;
    ConcatLast(parts);
    var init := Concat(parts[..|parts| - 1]);
    assert (init + last)[|init + last| - |last|..] == last;
  }

  /** The text of each section, in order. */
  function Texts(ss: seq<Section>): (ts: seq<string>)
    ensures |ts| == |ss| && forall i :: 0 <= i < |ss| ==> ts[i] == SectionText(ss[i])
  {
    seq(|ss|, i requires 0 <= i < |ss| => SectionText(ss[i]))
  }

  /** The prompt text of a list of sections: their texts, concatenated. It
      starts with the first section's text and ends with the last's. */
  function Render(ss: seq<Section>): (r: string)
    ensures |ss| == 0 ==> r == ""
    ensures |ss| > 0 ==> StartsWith(r, SectionText(ss[0])) && EndsWith(r, SectionText(ss[|ss| - 1]))
  {
    var texts := Texts(ss);
    if |ss| == 0 then Concat(texts)
    else ConcatFrame(texts); Concat(texts)
  }

  /** Rendering distributes over appending sections, and one section renders
      to its own text. */
  lemma {:induction false} RenderAppend(a: seq<Section>, b: seq<Section>)
    ensures Render(a + b) == Render(a) + Render(b)
    ensures |a| == 1 ==> Render(a) == SectionText(a[0])
  {
    assert Texts(a + b) == Texts(a) + Texts(b);
    ConcatAppend(Texts(a), Texts(b));
    if |a| == 1 {
      assert Texts(a)[1..] == [];
    }
  }

  lemma ConcatAssociates(x: string, y: string, z: string)
    ensures x + (y + z) == x + y + z
  {
  }

  /** Every section's text sits in the prompt between the texts of the
      sections before it and those after it. */
  lemma RenderAt(ss: seq<Section>, i: nat)
    requires i < |ss|
    ensures Render(ss) == Render(ss[..i]) + SectionText(ss[i]) + Render(ss[i + 1..])
  {
    var pre, one, post := ss[..i], [ss[i]], ss[i + 1..];
    assert ss == pre + (one + post);
    RenderAppend(one, post);
    RenderAppend(pre, one + post);
    var x, y, z := Render(pre), SectionText(ss[i]), Render(post);
    assert Render(ss) == x + (y + z);
    ConcatAssociates(x, y, z);
  }

  /** A non-empty user input appears in the recommendation prompt, on its
      own `用户具体需求` line. */
  lemma UserNeedInPrompt(pref: Option<Preference>, userInput: string)
    requires userInput != ""
    ensures exists before, after :: Render(RecommendSections(pref, userInput)) == before + SectionText(UserNeed(userInput)) + after
  {
    var r := RecommendSections(pref, userInput);
    RecommendSectionsMember(pref, userInput, UserNeed(userInput));
    var i :| 0 <= i < |r| && r[i] == UserNeed(userInput);
    RenderAt(r, i);
    assert Render(r) == Render(r[..i]) + SectionText(UserNeed(userInput)) + Render(r[i + 1..]);
  }

  /** The recommendation prompt starts with the planner header and ends with
      the closing sentence. */
  lemma RecommendPromptFrame(pref: Option<Preference>, userInput: string)
    ensures StartsWith(Render(RecommendSections(pref, userInput)), PlannerHeaderText)
    ensures EndsWith(Render(RecommendSections(pref, userInput)), ClosingText)
  {
  }

  /** The JSON reply of `ai_recommend`. */
  datatype RecommendReply = Recommended(recommendation: string) | RecommendRejected(msg: string) {
    function Ret(): nat {
      if Recommended? then 0 else 1
    }
  }

  /** `ai_recommend`: the prompt built from the stored preference and the
      `preferences` field (absent reads as empty). */
  function RecommendView(pref: Option<Preference>, userInput: Option<string>, apiKey: Option<string>,
                         outcome: Outcome): (x: ViewExchange<RecommendReply>)
    ensures var call := ChatCompletion(NewErnie(apiKey), Render(RecommendSections(pref, userInput.GetOr(""))),
                                       DefaultModel, outcome);
            && x.sent == call.sent
            && (x.reply.Ret() == 0 <==> call.result.Success?)
            && (x.reply.Recommended? ==> x.reply.recommendation == call.result.value)
            && (x.reply.RecommendRejected? ==> x.reply.msg == RecommendFailurePrefix + call.result.error.message)
  {
    var prompt := Render(RecommendSections(pref, userInput.GetOr("")));
    var call := ChatCompletion(NewErnie(apiKey), prompt, DefaultModel, outcome);
    match call.result
    case Success(text) => ViewExchange(call.sent, Recommended(text))
    case Failure(e) => ViewExchange(call.sent, RecommendRejected(RecommendFailurePrefix + e.message))
  }
}

=== FILE: client_contrast.dfy ===
/** The two clients order their `except` clauses differently; these lemmas
    state where that shows. */
module ClientContrast {
  import opened Http
  import ErnieService
  import DeepSeekService

  /** A connect timeout is both a connection error and a timeout. The ERNIE
      client tests `ConnectionError` first and reports a network failure; the
      DeepSeek client tests `Timeout` first and reports a timeout. */
  lemma ConnectTimeoutRouting(detail: string, url: string)
    ensures ErnieService.TransportError(ConnectTimedOut(detail)).kind == ErnieService.ConnectionFailure
    ensures ErnieService.TransportError(ConnectTimedOut(detail)).message == ErnieService.ConnectionText
    ensures DeepSeekService.SummaryReply(url, Failed(ConnectTimedOut(detail)))
            == DeepSeekService.SummaryFailed(DeepSeekService.TimeoutText)
  {
  }

  /** A plain connection error is a network failure to the ERNIE client and a
      generic request error to the DeepSeek client, which has no clause of its
      own for it. */
  lemma ConnectErrorRouting(detail: string, url: string)
    ensures ErnieService.TransportError(ConnectFailed(detail)).kind == ErnieService.ConnectionFailure
    ensures DeepSeekService.SummaryReply(url, Failed(ConnectFailed(detail)))
            == DeepSeekService.SummaryFailed(DeepSeekService.RequestErrorText + detail)
  {
  }
}

=== FILE: deepseek_service.dfy ===
/** The DeepSeek document summariser: a client that refuses an empty key at
    construction, and one call that truncates the document, prefixes a prompt,
    POSTs to `<base>/chat/completions` and turns every outcome into a result
    dictionary instead of raising. */
module DeepSeekService {
  import opened Wrappers
  import opened Text
  import opened Http

  const DefaultBaseUrl: string := "https://api.deepseek.com/v1"
  const CompletionsPath: string := "/chat/completions"
  const Model: string := "deepseek-chat"
  /** Documents longer than this many characters are cut to this length. */
  const MaxContentLength: nat := 20000

  const EmptyKeyText: string := "API密钥不能为空"
  const TimeoutText: string := "请求DeepSeek API超时，请稍后重试"
  const RequestErrorText: string := "请求DeepSeek API时出错: "
  const ParseErrorText: string := "解析DeepSeek响应时出错: "
  const UnknownErrorText: string := "未知错误: "
  /** `str()` of the IndexError raised by `[]` on an empty list. */
  const IndexErrorText: string := "list index out of range"

  /** The prompt used when the caller gives none (the source's triple-quoted
      literal, indentation included). */
  const DefaultPrompt: string :=
    "请总结以下文档的主要内容，包括关键点和核心信息。\n"
    + "            要求：\n"
    + "            1. 提取主要议题或主题\n"
    + "            2. 列出关键要点\n"
    + "            3. 总结重要数据或结论\n"
    + "            4. 保持逻辑清晰，语言简洁\n"
    + "            \n"
    + "            文档内容如下：\n"
    + "            "

  /** A constructed `DeepSeekService`. */
  datatype DeepSeek = DeepSeek(apiKey: string, baseUrl: string, headers: seq<Header>)

  /** The result dictionary of `summarize_document`: `success: True` with
      `summary` and `usage`, or `success: False` with `error`. */
  datatype Summary = Summarized(summary: string, usage: Usage) | SummaryFailed(error: string) {
    predicate Success() {
      Summarized?
    }
  }

  /** What one call did: the request it sent and the dictionary it returned. */
  datatype SummaryExchange = SummaryExchange(sent: Request, reply: Summary)

  /** `DeepSeekService(api_key, base_url)`: a missing or empty key raises
      `ValueError`; otherwise the bearer header is fixed at construction.
      `baseUrl` is `None` when the caller omits the argument. */
  function NewDeepSeek(apiKey: Option<string>, baseUrl: Option<string>): (r: Result<DeepSeek, string>)
    ensures r.Failure? <==> !Truthy(apiKey)
    ensures r.Failure? ==> r.error == EmptyKeyText
    ensures r.Success? ==> r.value.apiKey == apiKey.value
    ensures r.Success? ==> r.value.baseUrl == if baseUrl.Some? then baseUrl.value else DefaultBaseUrl
    ensures r.Success? ==> HeaderValue(r.value.headers, "Authorization") == Some(Bearer(apiKey.value))
    ensures r.Success? ==> HeaderValue(r.value.headers, "Content-Type") == Some("application/json")
  {
    if !Truthy(apiKey) then Failure(EmptyKeyText)
    else
      var headers := [("Authorization", Bearer(apiKey.value)), ("Content-Type", "application/json")];
      assert HeaderValue(headers[1..], "Content-Type") == Some("application/json");
      Success(DeepSeek(apiKey.value, baseUrl.GetOr(DefaultBaseUrl), headers))
  }

  /** The document as sent: its prefix of at most `MaxContentLength`
      characters. */
  function Truncate(doc: string): (r: string)
    ensures r <= doc
    ensures |r| == if |doc| <= MaxContentLength then |doc| else MaxContentLength
  {
    if |doc| > MaxContentLength then doc[..MaxContentLength] else doc
  }

  /** Truncating twice cuts no more than truncating once, and a document
      within the limit passes unchanged. */
  lemma TruncateIdempotent(doc: string)
    ensures Truncate(Truncate(doc)) == Truncate(doc)
    ensures |doc| <= MaxContentLength ==> Truncate(doc) == doc
  {
  }

  /** The custom prompt when it is truthy, the default one otherwise. */
  function PromptFor(custom: Option<string>): (p: string)
    ensures Truthy(custom) ==> p == custom.value
    ensures !Truthy(custom) ==> p == DefaultPrompt
  {
    if Truthy(custom) then custom.value else DefaultPrompt
  }

  /** The prompt, a newline, then the document. */
  function FullPrompt(prompt: string, doc: string): (full: string)
    ensures |full| == |prompt| + 1 + |doc|
    ensures StartsWith(full, prompt) && full[|prompt|] == '\n' && full[|prompt| + 1..] == doc
  {
    prompt + "\n" + doc
  }

  /** The POST `summarize_document` sends. */
  function SummaryRequest(svc: DeepSeek, doc: string, custom: Option<string>): (r: Request)
    ensures r.url == svc.baseUrl + CompletionsPath && r.headers == svc.headers
    ensures PromptOf(r.payload) == Some(FullPrompt(PromptFor(custom), Truncate(doc)))
    ensures r.payload.model == Model && r.payload.stream == Some(false)
    ensures r.payload.temperature == Temperature && r.payload.maxTokens == MaxTokens
  {
    Request(svc.baseUrl + CompletionsPath, svc.headers,
            UserPayload(Model, FullPrompt(PromptFor(custom), Truncate(doc)), Some(false)))
  }

  /** The document is recoverable from the prompt that is sent: it is the
      text after the chosen prompt and its newline, and it is the caller's
      document itself when that is within the limit. */
  lemma DocumentRecoverable(svc: DeepSeek, doc: string, custom: Option<string>)
    ensures var full := PromptOf(SummaryRequest(svc, doc, custom).payload).value;
            var sent := full[|PromptFor(custom)| + 1..];
            && StartsWith(full, PromptFor(custom))
            && sent <= doc && |sent| <= MaxContentLength
            && (|doc| <= MaxContentLength ==> sent == doc)
  {
  }

  /** The `try`/`except` ladder of `summarize_document` after the POST:
      `Timeout` first, then any `RequestException` (connection errors,
      `raise_for_status` and `Response.json()` failures), then `KeyError`,
      then everything else. */
  function SummaryReply(url: string, outcome: Outcome): (r: Summary)
    ensures r.Success() <==>
              && outcome.Received? && !(400 <= outcome.response.status < 600)
              && outcome.response.json.Object?
              && outcome.response.json.choices.Some? && |outcome.response.json.choices.value| > 0
              && outcome.response.json.choices.value[0].message.Some?
              && outcome.response.json.choices.value[0].message.value.content.Some?
    ensures r.Success() ==>
              && r.summary == outcome.response.json.choices.value[0].message.value.content.value
              && r.usage == outcome.response.json.usage.GetOr(map[])
    ensures outcome.Failed? && outcome.failure.IsTimeout() ==> r == SummaryFailed(TimeoutText)
    ensures outcome.Failed? && !outcome.failure.IsTimeout() ==>
              r == SummaryFailed(RequestErrorText + outcome.failure.detail)
    ensures outcome.Received? && 400 <= outcome.response.status < 600 ==>
              r.SummaryFailed? && StartsWith(r.error, RequestErrorText)
    ensures outcome.Received? && 400 <= outcome.response.status < 600 ==>
              r == SummaryFailed(RequestErrorText + RaiseForStatus(outcome.response.status, outcome.response.reason, url).value)
    ensures outcome.Received? && !(400 <= outcome.response.status < 600) && outcome.response.json.NotJson? ==>
              r == SummaryFailed(RequestErrorText + outcome.response.json.error)
    ensures r.SummaryFailed? ==>
              || r.error == TimeoutText
              || StartsWith(r.error, RequestErrorText)
              || StartsWith(r.error, ParseErrorText)
              || StartsWith(r.error, UnknownErrorText)
  {
    match outcome
    case Failed(f) =>
      if f.IsTimeout() then SummaryFailed(TimeoutText) else SummaryFailed(RequestErrorText + f.detail)
    case Received(resp) =>
      match RaiseForStatus(resp.status, resp.reason, url)
      case Some(e) => SummaryFailed(RequestErrorText + e)
      case None =>
        match resp.json
        case NotJson(err) => SummaryFailed(RequestErrorText + err)
        case Object(choices, usage, _) =>
          match choices
          case None => SummaryFailed(ParseErrorText + "'choices'")
          case Some(cs) =>
            if |cs| == 0 then SummaryFailed(UnknownErrorText + IndexErrorText)
            else
              match cs[0].message
              case None => SummaryFailed(ParseErrorText + "'message'")
              case Some(m) =>
                match m.content
                case None => SummaryFailed(ParseErrorText + "'content'")
                case Some(c) => Summarized(c, usage.GetOr(map[]))
  }

  /** `summarize_document`: never raises; every path returns a dictionary. */
  function SummarizeDocument(svc: DeepSeek, doc: string, custom: Option<string>, outcome: Outcome): (x: SummaryExchange)
    ensures x.sent == SummaryRequest(svc, doc, custom)
    ensures |PromptOf(x.sent.payload).value| <= |PromptFor(custom)| + 1 + MaxContentLength
    ensures x.reply == SummaryReply(x.sent.url, outcome)
    ensures x.reply.Success() ==> outcome.Received? && !(400 <= outcome.response.status < 600)
  {
    var req := SummaryRequest(svc, doc, custom);
    SummaryExchange(req, SummaryReply(req.url, outcome))
  }

  /** A 4xx or 5xx reply reaches the caller as the request-error prefix
      followed by the `HTTPError` text, which opens with the status code and
      ends with the request URL. */
  lemma ErrorStatusReported(svc: DeepSeek, doc: string, custom: Option<string>, resp: Response)
    requires 400 <= resp.status < 600
    ensures var x := SummarizeDocument(svc, doc, custom, Received(resp));
            && x.reply.SummaryFailed?
            && StartsWith(x.reply.error, RequestErrorText)
            && StartsWith(x.reply.error[|RequestErrorText|..], NatToString(resp.status))
            && EndsWith(x.reply.error, svc.baseUrl + CompletionsPath)
  {
  }

  /** Where the failures of a received response are routed: a missing
      `choices` key to the KeyError branch, an empty `choices` list to the
      generic branch, a missing `message` or `content` to the KeyError branch. */
  lemma MalformedReplyRouting(url: string, resp: Response, usage: Option<Usage>, repr: string)
    requires !(400 <= resp.status < 600)
    ensures resp.json == Object(None, usage, repr) ==>
              SummaryReply(url, Received(resp)) == SummaryFailed(ParseErrorText + "'choices'")
    ensures resp.json == Object(Some([]), usage, repr) ==>
              SummaryReply(url, Received(resp)) == SummaryFailed(UnknownErrorText + IndexErrorText)
    ensures resp.json.Object? && resp.json.choices.Some? && |resp.json.choices.value| > 0
            && resp.json.choices.value[0].message.None? ==>
              SummaryReply(url, Received(resp)) == SummaryFailed(ParseErrorText + "'message'")
    ensures resp.json.Object? && resp.json.choices.Some? && |resp.json.choices.value| > 0
            && resp.json.choices.value[0].message.Some? && resp.json.choices.value[0].message.value.content.None? ==>
              SummaryReply(url, Received(resp)) == SummaryFailed(ParseErrorText + "'content'")
  {
  }
}

=== FILE: ernie_service.dfy ===
/** The ERNIE-branded chat client: a bearer credential taken from settings
    and cached on the instance, one POST per call to
    `<base>/v1/chat/completions`, and every failure raised as an exception
    whose kind and text are modelled by `ChatError`. */
module ErnieService {
  import opened Wrappers
  import opened Text
  import opened Http
  import StreamDecoder

  const BaseUrl: string := "https://www.blueshirtmap.com"
  const CompletionsPath: string := "/v1/chat/completions"
  const DefaultModel: string := "gpt-3.5-turbo"

  const MissingKeyText: string := "请在settings.py中配置ERNIE_API_KEY"
  const AuthFailureText: string := "API认证失败，请检查API Key是否正确"
  const NotFoundText: string := "API端点未找到，请检查URL是否正确: "
  const BadStatusText: string := "API调用失败: "
  const MalformedText: string := "API返回格式错误: "
  const ConnectionText: string := "网络连接错误，请检查网络连接是否正常"
  const TimeoutText: string := "请求超时，请稍后重试"
  const RequestFailureText: string := "网络请求异常: "
  /** The catch-all prefixes of the buffered and the streaming call. */
  const CallPrefix: string := "AI API调用出错: "
  const StreamPrefix: string := "AI流式API调用出错: "

  /** The kind of failure an exception raised by a call stands for. */
  datatype ErrorKind =
    | MissingCredential | ConnectionFailure | Timeout | RequestFailure
    | AuthFailure | NotFound | BadStatus | MalformedResponse | MissingField

  /** A raised exception: its kind and its `str()`. */
  datatype ChatError = ChatError(kind: ErrorKind, message: string)

  /** An `ErnieService` instance. `accessToken` starts out `None` and caches
      the credential after the first call that finds a key. */
  datatype Ernie = Ernie(apiKey: Option<string>, baseUrl: string, accessToken: Option<string>)

  /** What one call did: the instance afterwards, the request it sent if it
      got that far, and what it returned or raised. */
  datatype Exchange<T> = Exchange(service: Ernie, sent: Option<Request>, result: Result<T, ChatError>)

  /** `ErnieService()`: the key is read from settings and may be absent;
      construction never fails. */
  function NewErnie(apiKey: Option<string>): (s: Ernie)
    ensures s.apiKey == apiKey && s.baseUrl == BaseUrl && s.accessToken.None?
    ensures Cached(s)
  {
    Ernie(apiKey, BaseUrl, None)
  }

  /** The instance invariant: a cached token, if any, is the non-empty key. */
  predicate Cached(s: Ernie) {
    s.accessToken.Some? ==> Truthy(s.apiKey) && s.accessToken == s.apiKey
  }

  /** `_get_access_token`: the API key is the bearer credential; a missing or
      empty key raises. */
  function GetAccessToken(s: Ernie): (r: Result<Ernie, ChatError>)
    ensures r.Success? <==> Truthy(s.apiKey)
    ensures r.Success? ==> r.value == s.(accessToken := s.apiKey)
    ensures r.Failure? ==> r.error.message == MissingKeyText
  {
    if !Truthy(s.apiKey) then Failure(ChatError(MissingCredential, MissingKeyText))
    else Success(s.(accessToken := s.apiKey))
  }

  /** The token step at the head of both calls: reuse a cached token, else
      fetch one. */
  function EnsureToken(s: Ernie): (r: Result<Ernie, ChatError>)
    requires Cached(s)
    ensures r.Success? <==> Truthy(s.apiKey)
    ensures r.Success? ==> r.value.apiKey == s.apiKey && r.value.baseUrl == s.baseUrl
                           && r.value.accessToken == s.apiKey && Cached(r.value)
  {
    if Truthy(s.accessToken) then Success(s) else GetAccessToken(s)
  }

  /** The POST both calls send; only `Accept` and `stream` differ. */
  function CompletionRequest(baseUrl: string, token: string, prompt: string, model: string, stream: bool): (r: Request)
    ensures r.url == baseUrl + CompletionsPath
    ensures HeaderValue(r.headers, "Authorization") == Some(Bearer(token))
    ensures HeaderValue(r.headers, "Accept") == Some(if stream then "text/event-stream" else "application/json")
    ensures PromptOf(r.payload) == Some(prompt) && r.payload.model == model
    ensures r.payload.temperature == Temperature && r.payload.maxTokens == MaxTokens
    ensures r.payload.stream == (if stream then Some(true) else None)
  {
    var headers := [("Content-Type", "application/json"),
                    ("Accept", if stream then "text/event-stream" else "application/json"),
                    ("Authorization", Bearer(token))];
    assert HeaderValue(headers[2..], "Authorization") == Some(Bearer(token));
    assert HeaderValue(headers[1..], "Authorization") == Some(Bearer(token));
    Request(baseUrl + CompletionsPath, headers, UserPayload(model, prompt, if stream then Some(true) else None))
  }

  /** The three `except` clauses for transport failures, in source order:
      `ConnectionError` first, so a connect timeout reads as a network error. */
  function TransportError(f: TransportFailure): (e: ChatError)
    ensures f.IsConnectionError() <==> e.kind == ConnectionFailure
    ensures e.kind == Timeout <==> f.ReadTimedOut?
    ensures f.OtherRequestFailure? <==> e.kind == RequestFailure
    ensures f.OtherRequestFailure? ==> e.message == RequestFailureText + f.detail
    ensures e.kind == ConnectionFailure ==> e.message == ConnectionText
    ensures e.kind == Timeout ==> e.message == TimeoutText
  {
    if f.IsConnectionError() then ChatError(ConnectionFailure, ConnectionText)
    else if f.IsTimeout() then ChatError(Timeout, TimeoutText)
    else ChatError(RequestFailure, RequestFailureText + f.detail)
  }

  /** A non-200 status: the error raised inside the `try`, re-wrapped by the
      catch-all with `prefix`. Any status other than exactly 200, 2xx
      included, lands here. */
  function StatusError(status: nat, text: string, url: string, prefix: string): (e: ChatError)
    ensures StartsWith(e.message, prefix)
    ensures status == 401 <==> e.kind == AuthFailure
    ensures status == 404 <==> e.kind == NotFound
    ensures e.kind == NotFound ==> EndsWith(e.message, url)
    ensures e.kind == BadStatus <==> status != 401 && status != 404
    ensures e.kind == BadStatus ==>
              StartsWith(e.message[|prefix|..], BadStatusText + NatToString(status) + " - ") && EndsWith(e.message, text)
    ensures e.kind == BadStatus ==> e.message == prefix + BadStatusText + NatToString(status) + " - " + text
    ensures e.kind == AuthFailure ==> e.message == prefix + AuthFailureText
    ensures e.kind == NotFound ==> e.message == prefix + NotFoundText + url
  {
    if status == 401 then ChatError(AuthFailure, prefix + AuthFailureText)
    else if status == 404 then ChatError(NotFound, prefix + NotFoundText + url)
    else ChatError(BadStatus, prefix + BadStatusText + NatToString(status) + " - " + text)
  }

  /** The buffered reply of a 200 response: `choices[0].message.content`. */
  function ReplyContent(body: Parsed): (r: Result<string, ChatError>)
    ensures r.Success? <==> body.Object? && body.choices.Some? && |body.choices.value| > 0
                            && body.choices.value[0].message.Some?
                            && body.choices.value[0].message.value.content.Some?
    ensures r.Success? ==> r.value == body.choices.value[0].message.value.content.value
    ensures body.NotJson? ==> r == Failure(ChatError(RequestFailure, RequestFailureText + body.error))
    ensures body.Object? && (body.choices.None? || |body.choices.value| == 0) ==>
              r == Failure(ChatError(MalformedResponse, CallPrefix + MalformedText + body.repr))
    ensures body.Object? && body.choices.Some? && |body.choices.value| > 0 && body.choices.value[0].message.None? ==>
              r == Failure(ChatError(MissingField, CallPrefix + "'message'"))
    ensures body.Object? && body.choices.Some? && |body.choices.value| > 0 && body.choices.value[0].message.Some?
            && body.choices.value[0].message.value.content.None? ==>
              r == Failure(ChatError(MissingField, CallPrefix + "'content'"))
  {
    match body
    case NotJson(err) =>
      // requests raises its JSONDecodeError, a RequestException
      Failure(ChatError(RequestFailure, RequestFailureText + err))
    case Object(choices, _, repr) =>
      if choices.Some? && |choices.value| > 0 then
        match choices.value[0].message
        case None => Failure(ChatError(MissingField, CallPrefix + "'message'"))
        case Some(m) =>
          match m.content
          case None => Failure(ChatError(MissingField, CallPrefix + "'content'"))
          case Some(c) => Success(c)
      else Failure(ChatError(MalformedResponse, CallPrefix + MalformedText + repr))
  }

  /** `chat_completion`: one buffered completion. */
  function ChatCompletion(s: Ernie, prompt: string, model: string, outcome: Outcome): (x: Exchange<string>)
    requires Cached(s)
    ensures Cached(x.service) && x.service.apiKey == s.apiKey && x.service.baseUrl == s.baseUrl
    ensures x.sent.None? <==> !Truthy(s.apiKey)
    ensures x.sent.None? ==> x.result == Failure(ChatError(MissingCredential, CallPrefix + MissingKeyText))
    ensures x.sent.Some? ==> x.sent.value == CompletionRequest(s.baseUrl, s.apiKey.value, prompt, model, false)
    ensures x.result.Success? ==> outcome.Received? && outcome.response.status == 200
    ensures Truthy(s.apiKey) && outcome.Failed? ==> x.result == Failure(TransportError(outcome.failure))
    ensures Truthy(s.apiKey) && outcome.Received? && outcome.response.status != 200 ==>
              x.result == Failure(StatusError(outcome.response.status, outcome.response.text,
                                              s.baseUrl + CompletionsPath, CallPrefix))
  {
    match EnsureToken(s)
    case Failure(e) => Exchange(s, None, Failure(ChatError(e.kind, CallPrefix + e.message)))
    case Success(t) =>
      var req := CompletionRequest(t.baseUrl, t.accessToken.value, prompt, model, false);
      var result :=
        match outcome
        case Failed(f) => Failure(TransportError(f))
        case Received(resp) =>
          if resp.status == 200 then ReplyContent(resp.json)
          else Failure(StatusError(resp.status, resp.text, req.url, CallPrefix));
      Exchange(t, Some(req), result)
  }

  /** `chat_completion_stream`: the generator run to the end, as the list of
      fragments it yields or the exception it raises. */
  function ChatCompletionStream(s: Ernie, prompt: string, model: string, outcome: Outcome,
                                parse: string -> Parsed): (x: Exchange<seq<string>>)
    requires Cached(s)
    ensures Cached(x.service) && x.service.apiKey == s.apiKey && x.service.baseUrl == s.baseUrl
    ensures x.sent.None? <==> !Truthy(s.apiKey)
    ensures x.sent.None? ==> x.result == Failure(ChatError(MissingCredential, StreamPrefix + MissingKeyText))
    ensures x.sent.Some? ==> x.sent.value == CompletionRequest(s.baseUrl, s.apiKey.value, prompt, model, true)
    ensures x.result.Success? <==> x.sent.Some? && outcome.Received? && outcome.response.status == 200
    ensures x.result.Success? ==> forall k :: 0 <= k < |x.result.value| ==> x.result.value[k] != ""
    ensures Truthy(s.apiKey) && outcome.Failed? ==> x.result == Failure(TransportError(outcome.failure))
    ensures Truthy(s.apiKey) && outcome.Received? && outcome.response.status != 200 ==>
              x.result == Failure(StatusError(outcome.response.status, outcome.response.text,
                                              s.baseUrl + CompletionsPath, StreamPrefix))
    ensures x.result.Success? ==> x.result.value == StreamDecoder.Decode(outcome.response.lines, parse)
  {
    match EnsureToken(s)
    case Failure(e) => Exchange(s, None, Failure(ChatError(e.kind, StreamPrefix + e.message)))
    case Success(t) =>
      var req := CompletionRequest(t.baseUrl, t.accessToken.value, prompt, model, true);
      var result :=
        match outcome
        case Failed(f) => Failure(TransportError(f))
        case Received(resp) =>
          if resp.status == 200 then Success(StreamDecoder.Decode(resp.lines, parse))
          else Failure(StatusError(resp.status, resp.text, req.url, StreamPrefix));
      Exchange(t, Some(req), result)
  }

  /** A buffered call succeeds exactly when a key is configured, the POST
      returned status 200, and the body holds a non-empty `choices` whose
      first message has content; the reply is that content. */
  lemma ChatCompletionSucceeds(s: Ernie, prompt: string, model: string, outcome: Outcome)
    requires Cached(s)
    ensures ChatCompletion(s, prompt, model, outcome).result.Success?
            <==> && Truthy(s.apiKey) && outcome.Received? && outcome.response.status == 200
                 && ReplyContent(outcome.response.json).Success?
    ensures ChatCompletion(s, prompt, model, outcome).result.Success? ==>
              ChatCompletion(s, prompt, model, outcome).result.value
                == outcome.response.json.choices.value[0].message.value.content.value
  {
  }

  /** Every failure raised inside the `try` of a buffered call after the POST
      returned (bad status, malformed or incomplete reply) carries the
      catch-all prefix; a 200 with no usable `choices` is such a failure. */
  lemma ResponseErrorsWrapped(s: Ernie, prompt: string, model: string, resp: Response)
    requires Cached(s) && Truthy(s.apiKey)
    requires resp.status != 200 || resp.json.Object?
    ensures var x := ChatCompletion(s, prompt, model, Received(resp));
            x.result.Failure? ==> StartsWith(x.result.error.message, CallPrefix)
    ensures resp.status == 200 && resp.json.Object?
            && (resp.json.choices.None? || |resp.json.choices.value| == 0) ==>
              ChatCompletion(s, prompt, model, Received(resp)).result.Failure?
  {
  }

  /** The streaming call re-wraps its status errors with the streaming
      prefix, and a 200 response yields the decoded fragments. */
  lemma StreamResponseRouting(s: Ernie, prompt: string, model: string, resp: Response, parse: string -> Parsed)
    requires Cached(s) && Truthy(s.apiKey)
    ensures var x := ChatCompletionStream(s, prompt, model, Received(resp), parse);
            && (resp.status != 200 ==> x.result.Failure? && StartsWith(x.result.error.message, StreamPrefix))
            && (resp.status == 200 ==> x.result == Success(StreamDecoder.Decode(resp.lines, parse)))
  {
  }

  /** A bad-status message names the status: it can be read back from the
      message. */
  lemma BadStatusNamesCode(status: nat, text: string, url: string, prefix: string)
    requires status != 401 && status != 404
    ensures var m := StatusError(status, text, url, prefix).message;
            var digits := m[|prefix| + |BadStatusText|..|prefix| + |BadStatusText| + |NatToString(status)|];
            IsDigits(digits) && DigitsValue(digits) == status
  {
    var m := StatusError(status, text, url, prefix).message;
    var d := NatToString(status);
    assert m == prefix + BadStatusText + d + " - " + text;
    assert m[|prefix| + |BadStatusText|..|prefix| + |BadStatusText| + |d|] == d;
    NatToStringRoundTrip(status);
  }

  /** The key is fetched once: after a call that found a key, the instance
      caches it, and a later call sends the same bearer credential without
      consulting settings again. */
  lemma TokenReused(key: string, p1: string, p2: string, model: string, o1: Outcome, o2: Outcome)
    requires key != ""
    ensures var x1 := ChatCompletion(NewErnie(Some(key)), p1, model, o1);
            && x1.service.accessToken == Some(key)
            && var x2 := ChatCompletion(x1.service, p2, model, o2);
               && x2.service == x1.service
               && x2.sent.Some?
               && HeaderValue(x2.sent.value.headers, "Authorization") == Some(Bearer(key))
  {
  }

  /** Without a key, construction succeeds and every call fails before
      sending anything, leaving the instance as it was. */
  lemma MissingKeyFailsOnCall(p: string, model: string, o: Outcome, parse: string -> Parsed)
    ensures var x := ChatCompletion(NewErnie(None), p, model, o);
            x.sent.None? && x.service == NewErnie(None) && x.result.Failure?
            && x.result.error.kind == MissingCredential
    ensures ChatCompletionStream(NewErnie(None), p, model, o, parse).result.Failure?
  {
  }
}

=== FILE: http.dfy ===
/** The HTTP and JSON collaborators of both chat services, reduced to values:
    what `requests.post` returns or raises, what `json.loads` and
    `Response.json()` produce, and the request the services build. */
module Http {
  import opened Wrappers
  import opened Text

  /** The exceptions `requests.post` (or reading its body) can raise before a
      usable response exists, by their place in the `requests` class tree. */
  datatype TransportFailure =
    | ConnectFailed(detail: string)       // ConnectionError
    | ConnectTimedOut(detail: string)     // ConnectTimeout: a ConnectionError AND a Timeout
    | ReadTimedOut(detail: string)        // ReadTimeout: a Timeout only
    | OtherRequestFailure(detail: string) // any other RequestException
  {
    /** Caught by `except requests.exceptions.ConnectionError`. */
    predicate IsConnectionError() {
      ConnectFailed? || ConnectTimedOut?
    }

    /** Caught by `except requests.exceptions.Timeout`. */
    predicate IsTimeout() {
      ConnectTimedOut? || ReadTimedOut?
    }
  }

  /** `choices[i].message`; `content` is `None` when the key is absent. */
  datatype ReplyMessage = ReplyMessage(content: Option<string>)

  /** `choices[i].delta` of a streamed event; `content` is `None` when absent. */
  datatype Delta = Delta(content: Option<string>)

  /** One element of `choices`; each field is `None` when its key is absent. */
  datatype Choice = Choice(message: Option<ReplyMessage>, delta: Option<Delta>)

  /** The token-count mapping of a completion (`usage`). */
  type Usage = map<string, int>

  /** The result of parsing a text as JSON: a parse error with its message, or
      an object whose `choices` and `usage` keys may be absent. `repr` is the
      object's Python `str()`, which one error message quotes. */
  datatype Parsed =
    | NotJson(error: string)
    | Object(choices: Option<seq<Choice>>, usage: Option<Usage>, repr: string)

  /** A received HTTP response: status code and reason phrase, body text,
      the body as `Response.json()` parses it, and the body's lines as
      `Response.iter_lines()` yields them. */
  datatype Response = Response(status: nat, reason: string, text: string, json: Parsed, lines: seq<string>)

  /** What one `requests.post` call ends in. */
  datatype Outcome = Failed(failure: TransportFailure) | Received(response: Response)

  datatype ChatMessage = ChatMessage(role: string, content: string)

  /** The JSON body of a chat-completion request; `stream` is `None` when the
      key is left out of the payload. */
  datatype Payload = Payload(model: string, messages: seq<ChatMessage>, temperature: real,
                             maxTokens: nat, stream: Option<bool>)

  type Header = (string, string)

  /** One outbound POST: URL, headers in insertion order, JSON payload. */
  datatype Request = Request(url: string, headers: seq<Header>, payload: Payload)

  /** The sampling temperature both services send (a float in the source). */
  const Temperature: real := 0.7
  const MaxTokens: nat := 2048
  const BearerScheme: string := "Bearer "

  /** The `Authorization` header value for a credential. */
  function Bearer(token: string): (v: string)
    ensures StartsWith(v, BearerScheme) && v[|BearerScheme|..] == token
  {
    BearerScheme + token
  }

  /** The value of the first header named `name`. */
  function HeaderValue(headers: seq<Header>, name: string): (v: Option<string>)
    ensures v.Some? <==> exists i :: 0 <= i < |headers| && headers[i].0 == name
    ensures v.Some? ==> exists i :: 0 <= i < |headers| && headers[i] == (name, v.value)
  {
    if |headers| == 0 then None
    else if headers[0].0 == name then Some(headers[0].1)
    else
      var v := HeaderValue(headers[1..], name);
      assert v.Some? ==> exists i :: 0 <= i < |headers| && headers[i] == (name, v.value) by {
        if v.Some? {
          var i :| 0 <= i < |headers| - 1 && headers[1..][i] == (name, v.value);
          assert headers[i + 1] == (name, v.value);
        }
      }
      assert (exists i :: 0 <= i < |headers| && headers[i].0 == name) ==> v.Some? by {
        if exists i :: 0 <= i < |headers| && headers[i].0 == name {
          var i :| 0 <= i < |headers| && headers[i].0 == name;
          assert headers[1..][i - 1].0 == name;
        }
      }
      v
  }

  /** A chat-completion payload carrying `prompt` as its single user message,
      with the fixed sampling parameters. */
  function UserPayload(model: string, prompt: string, stream: Option<bool>): (p: Payload)
    ensures p.model == model && p.stream == stream
    ensures p.temperature == Temperature && p.maxTokens == MaxTokens
    ensures |p.messages| == 1 && p.messages[0].role == "user"
  {
    Payload(model, [ChatMessage("user", prompt)], Temperature, MaxTokens, stream)
  }

  /** The prompt a payload carries: the content of its single user message. */
  function PromptOf(p: Payload): Option<string> {
    if |p.messages| == 1 && p.messages[0].role == "user" then Some(p.messages[0].content) else None
  }

  /** The payload carries the caller's prompt verbatim. */
  lemma UserPayloadCarriesPrompt(model: string, prompt: string, stream: Option<bool>)
    ensures PromptOf(UserPayload(model, prompt, stream)) == Some(prompt)
  {
  }

  /** `Response.raise_for_status()`: the `HTTPError` text for a 4xx or 5xx
      status, `None` for every other status. */
  function RaiseForStatus(status: nat, reason: string, url: string): (e: Option<string>)
    ensures e.Some? <==> 400 <= status < 600
    ensures e.Some? ==> StartsWith(e.value, NatToString(status)) && EndsWith(e.value, url)
  {
    if 400 <= status < 500 then Some(NatToString(status) + " Client Error: " + reason + " for url: " + url)
    else if 500 <= status < 600 then Some(NatToString(status) + " Server Error: " + reason + " for url: " + url)
    else None
  }
}

=== FILE: stream_decoder.dfy ===
/** The line loop of the streaming chat completion: server-sent-event lines
    in, text fragments out. JSON parsing is the parameter `parse`, standing
    for `json.loads`. */
module StreamDecoder {
  import opened Wrappers
  import opened Text
  import opened Http

  const DataPrefix: string := "data: "
  const DoneMarker: string := "[DONE]"

  /** The text after the `data: ` prefix. */
  function EventData(line: string): string
    requires StartsWith(line, DataPrefix)
  {
    line[|DataPrefix|..]
  }

  /** What one parsed event contributes: `choices[0].delta.content`, when
      `choices` is a non-empty list and that content is present and
      non-empty. */
  function DeltaContent(p: Parsed): (r: Option<string>)
    ensures r.Some? <==>
              && p.Object? && p.choices.Some? && |p.choices.value| > 0
              && p.choices.value[0].delta.Some?
              && Truthy(p.choices.value[0].delta.value.content)
    ensures r.Some? ==> r == p.choices.value[0].delta.value.content
    ensures r.Some? ==> r.value != ""
  {
    match p
    case NotJson(_) => None
    case Object(choices, _, _) =>
      if choices.None? || |choices.value| == 0 then None
      else
        match choices.value[0].delta
        case None => None
        case Some(d) => if d.content.Some? && d.content.value != "" then d.content else None
  }

  /** The fragment one line yields, if any: blank lines, lines without the
      `data: ` prefix and the `[DONE]` event yield nothing. */
  function Fragment(line: string, parse: string -> Parsed): (r: Option<string>)
    ensures r.Some? ==> r.value != ""
    ensures r.Some? ==> StartsWith(line, DataPrefix) && EventData(line) != DoneMarker
    ensures r.Some? ==> r == DeltaContent(parse(EventData(line)))
  {
    if |line| == 0 then None
    else if !StartsWith(line, DataPrefix) then None
    else if EventData(line) == DoneMarker then None
    else DeltaContent(parse(EventData(line)))
  }

  /** The fragments a stream of lines yields, in line order. The loop has no
      `break`: lines after `[DONE]` are still decoded. */
  function Decode(lines: seq<string>, parse: string -> Parsed): (chunks: seq<string>)
    ensures |chunks| <= |lines|
    ensures forall k :: 0 <= k < |chunks| ==> chunks[k] != ""
  {
    if |lines| == 0 then []
    else
      var rest := Decode(lines[1..], parse);
      match Fragment(lines[0], parse)
      case None => rest
      case Some(c) => [c] + rest
  }

  /** Decoding distributes over concatenation of line streams. */
  lemma {:induction false} DecodeAppend(a: seq<string>, b: seq<string>, parse: string -> Parsed)
    ensures Decode(a + b, parse) == Decode(a, parse) + Decode(b, parse)
  {
    if |a| == 0 {
      assert a + b == b;
    } else {
      assert (a + b)[1..] == a[1..] + b;
      DecodeAppend(a[1..], b, parse);
    }
  }

  /** A line that yields no fragment for any of the reasons the loop skips it
      (blank, no `data: ` prefix, the `[DONE]` event, unparseable JSON, no
      usable `choices[0].delta.content`) leaves the fragments of the lines
      around it as they were, in order. */
  lemma SkippedLine(before: seq<string>, line: string, after: seq<string>, parse: string -> Parsed)
    requires || |line| == 0
             || !StartsWith(line, DataPrefix)
             || EventData(line) == DoneMarker
             || parse(EventData(line)).NotJson?
             || DeltaContent(parse(EventData(line))).None?
    ensures Fragment(line, parse).None?
    ensures Decode(before + [line] + after, parse) == Decode(before, parse) + Decode(after, parse)
  {
    DecodeAppend(before + [line], after, parse);
    DecodeAppend(before, [line], parse);
    assert Decode([line], parse) == [];
  }

  /** `data: [DONE]` ends nothing: the lines after it are decoded as if it
      were absent. */
  lemma DoneDoesNotStop(before: seq<string>, after: seq<string>, parse: string -> Parsed)
    ensures Decode(before + [DataPrefix + DoneMarker] + after, parse)
            == Decode(before, parse) + Decode(after, parse)
  {
    var line := DataPrefix + DoneMarker;
    assert StartsWith(line, DataPrefix) && EventData(line) == DoneMarker;
    SkippedLine(before, line, after, parse);
  }

  /** A line with content yields exactly that content, between the fragments
      of the lines before it and those after it. */
  lemma YieldingLine(before: seq<string>, line: string, after: seq<string>, parse: string -> Parsed)
    requires StartsWith(line, DataPrefix) && EventData(line) != DoneMarker
    requires DeltaContent(parse(EventData(line))).Some?
    ensures Decode(before + [line] + after, parse)
            == Decode(before, parse) + [DeltaContent(parse(EventData(line))).value] + Decode(after, parse)
  {
    DecodeAppend(before + [line], after, parse);
    DecodeAppend(before, [line], parse);
    assert [line][1..] == [];
  }

  /** The elements `f` maps to a value, mapped, in order. */
  function Collect<T, U>(xs: seq<T>, f: T -> Option<U>): seq<U> {
    if |xs| == 0 then []
    else
      var rest := Collect(xs[1..], f);
      match f(xs[0])
      case None => rest
      case Some(y) => [y] + rest
  }

  lemma {:induction false} CollectAppend<T, U>(a: seq<T>, b: seq<T>, f: T -> Option<U>)
    ensures Collect(a + b, f) == Collect(a, f) + Collect(b, f)
  {
    if |a| == 0 {
      assert a + b == b;
    } else {
      assert (a + b)[1..] == a[1..] + b;
      CollectAppend(a[1..], b, f);
    }
  }

  /** The decoder is `Collect` of the per-line fragment. */
  lemma {:induction false} DecodeIsCollect(lines: seq<string>, parse: string -> Parsed)
    ensures Decode(lines, parse) == Collect(lines, line => Fragment(line, parse))
  {
    if |lines| > 0 {
      DecodeIsCollect(lines[1..], parse);
    }
  }

  /** A left-to-right loop computing `Collect`, which also records, for each
      output, the index of the input it came from. */
  method CollectIndexed<T, U>(xs: seq<T>, f: T -> Option<U>) returns (ys: seq<U>, origin: seq<nat>)
    ensures ys == Collect(xs, f)
    ensures |origin| == |ys|
    ensures forall k :: 0 <= k < |origin| ==> origin[k] < |xs| && f(xs[origin[k]]) == Some(ys[k])
    ensures forall j, k :: 0 <= j < k < |origin| ==> origin[j] < origin[k]
    ensures forall i :: 0 <= i < |xs| && f(xs[i]).Some? ==> i in origin
  {
    ys, origin := [], [];
    var i := 0;
    while i < |xs|
      invariant 0 <= i <= |xs|
      invariant ys == Collect(xs[..i], f)
      invariant |origin| == |ys|
      invariant forall k :: 0 <= k < |origin| ==> origin[k] < i && f(xs[origin[k]]) == Some(ys[k])
      invariant forall j, k :: 0 <= j < k < |origin| ==> origin[j] < origin[k]
      invariant forall n :: 0 <= n < i && f(xs[n]).Some? ==> n in origin
    {
      CollectAppend(xs[..i], [xs[i]], f);
      assert xs[..i + 1] == xs[..i] + [xs[i]];
      assert [xs[i]][1..] == [];
      if f(xs[i]).Some? {
        ys, origin := ys + [f(xs[i]).value], origin + [i];
      }
      i := i + 1;
    }
    assert xs[..i] == xs;
  }

  /** The decoding loop as the source writes it, one line at a time. Besides
      agreeing with `Decode`, it reports for each fragment the index of the
      line it came from: the fragments are exactly the yielding lines' contents,
      in input order. */
  method DecodeStream(lines: seq<string>, parse: string -> Parsed) returns (chunks: seq<string>, origin: seq<nat>)
    ensures chunks == Decode(lines, parse)
    ensures |origin| == |chunks|
    ensures forall k :: 0 <= k < |origin| ==>
              origin[k] < |lines| && Fragment(lines[origin[k]], parse) == Some(chunks[k])
    ensures forall j, k :: 0 <= j < k < |origin| ==> origin[j] < origin[k]
    ensures forall i :: 0 <= i < |lines| && Fragment(lines[i], parse).Some? ==> i in origin
  {
    chunks, origin := CollectIndexed(lines, line => Fragment(line, parse));
    DecodeIsCollect(lines, parse);
  }

  /** The example stream of two content events and `[DONE]`, with an
      unparseable line between the two events, yields exactly the two
      contents. */
  lemma TwoEventsAndDone(parse: string -> Parsed, a: string, b: string)
    requires a != "" && b != ""
    requires parse("A") == Object(Some([Choice(None, Some(Delta(Some(a))))]), None, "A")
    requires parse("B") == Object(Some([Choice(None, Some(Delta(Some(b))))]), None, "B")
    requires parse("oops").NotJson?
    ensures Decode(["data: A", "data: oops", "data: B", "data: [DONE]"], parse) == [a, b]
  {
    var lines := ["data: A", "data: oops", "data: B", "data: [DONE]"];
    assert EventData(lines[0]) == "A";
    assert EventData(lines[1]) == "oops";
    assert EventData(lines[2]) == "B";
    assert EventData(lines[3]) == DoneMarker;
    assert lines[1..] == ["data: oops", "data: B", "data: [DONE]"];
    assert lines[1..][1..] == ["data: B", "data: [DONE]"];
    assert lines[1..][1..][1..] == ["data: [DONE]"];
  }
}

=== FILE: text.dfy ===
/** String helpers shared by the services and the views: prefix tests and the
    decimal rendering Python's `str()` gives integers and two-place decimals. */
module Text {

  /** Python's `s.startswith(prefix)`. */
  predicate StartsWith(s: string, prefix: string) {
    |prefix| <= |s| && s[..|prefix|] == prefix
  }

  /** Python's `s.endswith(suffix)`. */
  predicate EndsWith(s: string, suffix: string) {
    |suffix| <= |s| && s[|s| - |suffix|..] == suffix
  }

  predicate IsDigit(c: char) {
    '0' <= c <= '9'
  }

  predicate IsDigits(s: string) {
    forall i :: 0 <= i < |s| ==> IsDigit(s[i])
  }

  function DigitChar(d: nat): (c: char)
    requires d < 10
    ensures IsDigit(c)
  {
    (('0' as int) + d) as char
  }

  function DigitValue(c: char): (d: nat)
    requires IsDigit(c)
    ensures d < 10
  {
    (c as int) - ('0' as int)
  }

  /** The value of a string of decimal digits, read left to right. */
  function DigitsValue(s: string): nat
    requires IsDigits(s)
  {
    if |s| == 0 then 0 else DigitsValue(s[..|s| - 1]) * 10 + DigitValue(s[|s| - 1])
  }

  /** Python's `str(n)` for a non-negative integer: canonical decimal digits. */
  function NatToString(n: nat): (s: string)
    ensures 1 <= |s|
    ensures IsDigits(s)
    ensures 1 < |s| ==> s[0] != '0'
  {
    if n < 10 then [DigitChar(n)] else NatToString(n / 10) + [DigitChar(n % 10)]
  }

  /** Reading back the digits `NatToString` prints gives the number printed. */
  lemma {:induction false} NatToStringRoundTrip(n: nat)
    ensures DigitsValue(NatToString(n)) == n
  {
    var s := NatToString(n);
    if n < 10 {
      assert s[..|s| - 1] == [];
    } else {
      var front := NatToString(n / 10);
      assert s[..|s| - 1] == front;
      NatToStringRoundTrip(n / 10);
    }
  }

  /** `str()` of a non-negative two-place `Decimal`, given in hundredths:
      the integer part, `.`, and exactly two fraction digits. */
  function UnsignedDecimalText(m: nat): (s: string)
    ensures 4 <= |s| && s[0] != '-'
    ensures s[|s| - 3] == '.' && IsDigit(s[|s| - 2]) && IsDigit(s[|s| - 1])
  {
    NatToString(m / 100) + "." + [DigitChar(m % 100 / 10), DigitChar(m % 10)]
  }

  /** Python's `str()` of a `Decimal` with two decimal places, given as a
      whole number of hundredths: an optional `-`, then the magnitude. */
  function DecimalText(hundredths: int): (s: string)
    ensures 4 <= |s|
    ensures (s[0] == '-') <==> hundredths < 0
    ensures s[|s| - 3] == '.' && IsDigit(s[|s| - 2]) && IsDigit(s[|s| - 1])
  {
    if hundredths < 0 then "-" + UnsignedDecimalText(-hundredths) else UnsignedDecimalText(hundredths)
  }

  /** The two fraction digits of `DecimalText` read back as a number below 100. */
  lemma TwoDigitsValue(a: nat, b: nat)
    requires a < 10 && b < 10
    ensures DigitsValue([DigitChar(a), DigitChar(b)]) == a * 10 + b
  {
    var t := [DigitChar(a), DigitChar(b)];
    assert t[..1] == [DigitChar(a)];
    assert [DigitChar(a)][..0] == [];
    assert DigitsValue([DigitChar(a)]) == DigitValue(DigitChar(a));
    assert DigitsValue(t) == DigitsValue(t[..1]) * 10 + DigitValue(DigitChar(b));
  }

  /** The integer and fraction digits of a rendered magnitude read back as
      that magnitude. */
  lemma UnsignedDecimalTextRoundTrip(m: nat)
    ensures var s := UnsignedDecimalText(m);
            IsDigits(s[..|s| - 3]) && IsDigits(s[|s| - 2..]) &&
            DigitsValue(s[..|s| - 3]) * 100 + DigitsValue(s[|s| - 2..]) == m
  {
    var whole := NatToString(m / 100);
    var frac := [DigitChar(m % 100 / 10), DigitChar(m % 10)];
    var s := UnsignedDecimalText(m);
    assert s[..|s| - 3] == whole;
    assert s[|s| - 2..] == frac;
    NatToStringRoundTrip(m / 100);
    TwoDigitsValue(m % 100 / 10, m % 10);
  }

  /** The sign and magnitude of a rendered decimal are recoverable: the text
      after an optional `-` reads back as the magnitude. */
  lemma DecimalTextRoundTrip(hundredths: int)
    ensures var s := DecimalText(hundredths);
            var body := if hundredths < 0 then s[1..] else s;
            IsDigits(body[..|body| - 3]) && IsDigits(body[|body| - 2..]) &&
            DigitsValue(body[..|body| - 3]) * 100 + DigitsValue(body[|body| - 2..])
              == (if hundredths < 0 then -hundredths else hundredths)
  {
    var m: nat := if hundredths < 0 then -hundredths else hundredths;
    var s := DecimalText(hundredths);
    assert (if hundredths < 0 then s[1..] else s) == UnsignedDecimalText(m);
    UnsignedDecimalTextRoundTrip(m);
  }
}

=== FILE: wrappers.dfy ===
/** Optional values and success-or-failure results, used in place of Python's
    `None` and of raised exceptions. */
module Wrappers {

  /** A value that may be absent: `None` stands for a missing dictionary key
      or a Python `None`. */
  datatype Option<+T> = None | Some(value: T) {

    /** The value, or `default` when it is absent (Python's `dict.get(key, default)`). */
    function GetOr(default: T): T {
      match this
      case Some(v) => v
      case None => default
    }
  }

  /** Python truthiness of an optional string: present and non-empty. */
  predicate Truthy(s: Option<string>) {
    s.Some? && s.value != ""
  }

  /** The outcome of an operation that either returns a value or raises. */
  datatype Result<+R, +E> = Success(value: R) | Failure(error: E)
}
